=== FILE: README.md ===
# rob-run worker: job bookkeeping and emulator console protocol

A model of the core of the rob-run worker. The worker claims the oldest
queued job from a shared Postgres queue and runs its command in a fresh QEMU
virtual machine. It drives the machine's console by watching for a prompt
text, then stores the transcript and the final status. Two pieces of
sequential logic are modelled as pure functions over abstract data, plus three
methods (`Store.OldestQueued`, `Store.Claim` and `Worker.DoJob`):

- **Job bookkeeping** (`src/main.rs`), in three modules:
  - `JobStatus` is the status enum and its text codec.
  - `Store` has the `jobs`/`tests`/`groups` tables as finite maps, the
    atomic claim of `pull_job` and the column-restricted update of
    `save_job`.
  - `Worker` has the field rewrite of `run_job` and the claim → run → save
    cycle of `do_job`.
- **Emulator session** (`src/vm.rs`), in module `Vm`, with string helpers
  in `Text`. It covers:
  - the prompt-watching line scanner `prompt_check`;
  - the boot handshake `ready`, with the timers abstracted away;
  - the command framing of `run_command`;
  - the QEMU argument vector;
  - `run`, which puts these together.

Abstractions:
- Timestamps are abstract integers. `NOW()` in the claim and `Utc::now()`
  in `run_job` become the parameters `claimedAt` and `finishedAt`.
- Whether the store can be reached becomes two booleans of `DoJob`.
- The emulator is a function from its argument vector to a `Session`. A
  session fixes the following:
  - how the spawn went;
  - the console lines printed while booting;
  - which racing task settles first during boot (the boot timer, the
    keepalive newline sender, or the line reader);
  - whether the post-boot drain read and the command write succeed;
  - the console lines printed in reply to the exact text written to
    stdin;
  - which command timeouts fire before the scanner returns.
- A console stream after its listed lines ends in one of three ways: it
  closes, a read fails, or it stays silent forever. A silent stream with
  no prompt keeps the scanner waiting, so the timer wins that race.
- The memory size is fixed at `"1G"`, as `run` in `src/vm.rs` is written.
  `src/main.rs:109-115` calls `vm::run` with a seventh argument, a memory
  size read from the environment. The `run` in `src/vm.rs` declares only
  six parameters, so the model has no memory parameter.

Behaviours the code has that one might expect otherwise, modelled as the
code does them:
- One might expect every failed job to get a `completed_at`. On a failed
  emulator run, `do_job` sets only the status to `ERROR`, so the stored row
  keeps the `completed_at` it had when claimed (normally none). See
  `Worker.Conclude` and `Worker.DoJob`.
- One might expect a job that fails the timestamp check after a successful
  run to be saved as `ERROR`. `do_job` returns an error without saving it.
  That check can never fail after a claim, because the claim always stamps
  `started_at`: `Worker.DoJob` proves that every error it returns is a
  store error.
- The boot handshake treats any return of the scanner as readiness, even
  a failed one (see Findings). `Vm.Run`, and through it `Worker.RunJob` and
  `Worker.DoJob`, follow the code: the command is sent even when the boot
  scan ended without a prompt. `Vm.RunIntended` is the run with the
  corrected handshake `Vm.Ready`.

## Model

| member | source | states |
|---|---|---|
| `JobStatus.ToStr` | src/main.rs:23-30 | The text of a status is one of the four names, and decoding it gives the status back. |
| `JobStatus.FromStr` | src/main.rs:31-39 | Decoding is total: any text other than the four names decodes to `ERROR`. |
| `JobStatus.ToStrInjective` | src/main.rs:23-30 | Distinct statuses are written as distinct texts. |
| `JobStatus.NameRoundTrip` | src/main.rs:32-36 | Each of the four names decodes to the status whose text it is, so the encoding is onto the four names. |
| `Store.Load` | src/main.rs:89-101 | The job read back from a joined row has that row's id, stamps and output. Its status is the row's status text decoded: a text that is one of the four names is recovered exactly by `ToStr`, and any other text loads as `ERROR`. |
| `Store.MarkRunning` | src/main.rs:70-71 | The claim's `SET` leaves the row no longer `QUEUED`, with a status text that decodes to `RUNNING` and `started_at` = now. Its creation time, completion time, output, test and group are kept. |
| `Store.LoadAfterMarkRunning` | src/main.rs:68-101 | Loading the row just claimed gives the job loaded before the claim, now `Running` and started at the claim's instant; the row stays joined. |
| `Store.OldestQueued` | src/main.rs:75-78 | The subquery finds no row exactly when no row is `QUEUED`. Otherwise it finds a `QUEUED` row whose `created_at` is no later than that of any other `QUEUED` row. |
| `Store.Claim` | src/main.rs:68-104 | With no queued row, or when the picked oldest row lacks its test or group row, nothing is returned and the store is unchanged. Otherwise an oldest queued row with both joined rows is claimed. Only that row changes, and only to status `RUNNING` with `started_at` = now. The returned job is that row's joined record, with status `Running`. |
| `Store.Save` | src/main.rs:141-147 | Only the row with the job's id changes. Of that row only `status` (set to the job's status text), `started_at`, `completed_at` and `output` change, to the job's values. No other row or table changes, and an unknown id changes nothing. |
| `Store.SaveIdempotent` | src/main.rs:141-147 | Saving the same job twice gives the same store as saving it once. |
| `Store.SaveLoadRoundTrip` | src/main.rs:89-101 | Say a job was loaded from a row and since then only its worker-owned fields changed. Saving it and loading the row again gives that job back. |
| `Worker.VmCommand` | src/main.rs:109 | The command line given to the emulator run is the job's command, one space, then the repository URL, and both parts can be read back at fixed positions. |
| `Worker.Execute` | src/main.rs:109-115 | The emulator run for a job boots the job's base image, scripts image and snapshot, and writes `command + " " + git_url + "\r\n"`. It waits for the job's prompt with the job's command timeout. It succeeds exactly under the conditions of `Vm.Run` for those arguments, with the reply's transcript through the first prompt line. The memory size passed at main.rs:115 has no counterpart. |
| `Worker.RunJob` | src/main.rs:108-130 | A run succeeds exactly when the emulator run does. The job then becomes `COMPLETE`, with `completed_at` stamped and the transcript as output. Its id, `started_at` and definition fields (images, snapshot, prompt, command, timeout, URL) stay as they were. A failed run passes the emulator's error on. |
| `Worker.RunJobTranscript` | src/main.rs:109-115 | The emulator is sent exactly `command + " " + git_url + "\r\n"`. A successful job's output is the console's reply to that text, up to and including the first line holding the prompt. |
| `Worker.Conclude` | src/main.rs:157-171 | The timestamp check after a run fails exactly when the run succeeded and the job was never stamped as started. A failed run gives status `ERROR`, and every other field (`started_at`, `completed_at`, `output`, definition) stays as claimed. |
| `Worker.DoJob` | src/main.rs:151-173 | The store is unchanged if it cannot be reached. "No job" is returned, with the store unchanged, exactly when a reachable store has no queued row or an oldest queued row without its test or group row is picked; when a queued row exists and every oldest one is joined, a job is claimed. Every error is a store error, and an error is returned only when the store cannot be reached for the claim or the save. A save that cannot reach the store after a claim always ends in that error (or in no job, when nothing was claimed). With a reachable store and a claimable queued row, a job is always claimed and saved. If the save fails, the store is left with the claimed row `RUNNING` and the other tables untouched. A returned job is an oldest queued job carrying that row's joined definition; it is stored with its new status and stamps, and no other row or table changes. The job is `COMPLETE` (with the transcript and completion time) exactly when its emulator run succeeds, and `ERROR` otherwise. |
| `Vm.FirstPrompt` | src/vm.rs:29-34 | The index found is that of a line containing the prompt, and no earlier line contains it. |
| `Vm.PromptCheck` | src/vm.rs:26-37 | If some line contains the prompt, the scan returns the concatenation of `line + "\n"` over the lines up to and including the first such line. Otherwise: a closed stream gives the ran-out-of-input error, a failed read gives an I/O error, and a silent stream never returns. |
| `Vm.PromptCheckTranscript` | src/vm.rs:29-34 | Split back into lines, a successful transcript gives the consumed prefix of the input. Its last line contains the prompt and no earlier line does. Its length is the sum of line length + 1 over those lines. |
| `Vm.ReadyAsWritten` | src/vm.rs:40-64 | As written, the handshake succeeds exactly when the reader settles first, the drain read succeeds, and the stream either shows the prompt or ends. A stream that closes or fails also counts as ready. |
| `Vm.ReadyAsWrittenAcceptsClosedConsole` | src/vm.rs:52-55 | A console that closes before printing anything passes the handshake as written. The corrected handshake reports that input ran out. |
| `Vm.Ready` | src/vm.rs:40-64 | The handshake succeeds exactly when the reader settles first having found the prompt and the drain read succeeds. A boot timer or newline sender that settles first always gives its own error. A reader that settles first without a prompt passes on the scanner's error, or a boot timeout if the stream is silent. |
| `Vm.CommandLine` | src/vm.rs:71 | The text written to stdin is the command followed by exactly a carriage return and a newline, so dropping those two characters gives the command back. |
| `Vm.RunCommand` | src/vm.rs:67-82 | It succeeds exactly when the write succeeds, the timer does not fire first, and the console's reply to `command + "\r\n"` contains the prompt. The result is then the transcript of that reply up to the first prompt line. A failed write is an I/O error. With no prompt, a closed reply gives ran-out-of-input (unless the timer fired first), and a silent reply gives a command timeout. |
| `Vm.QemuArgs` | src/vm.rs:93-111 | The vector has 10 + 2 tokens per present option. It starts with `-hda image -m 1G -netdev user,id=n1 -device virtio-net-pci,netdev=n1 -nographic -snapshot`. A snapshot adds `-incoming "exec: gzip -c -d <path>"` at positions 10-11, and a scripts image adds `-cdrom <path>` as the last two tokens, after the snapshot pair. |
| `Vm.ParseQemuArgsRoundTrip` | src/vm.rs:93-111 | The argument vector determines the image, scripts image and snapshot it was built from. |
| `Vm.ParseQemuArgsSound` | src/vm.rs:93-111 | Every vector of the recognised shape is the one the builder makes from the inputs it encodes. |
| `Vm.Run` | src/vm.rs:86-134 | A session succeeds exactly when all of the following hold: the emulator spawned with both pipes; the reader won the boot race and its scan either saw the prompt or ended in a read error (the handshake as written); the drain read and the command write succeeded; the command timer did not fire first; and the reply to the framed command contains the prompt. The result is that reply's transcript up to the first prompt line, and the boot lines are left out. A spawn failure or a missing stdin or stdout pipe gives its own error. A boot timer that settles first gives a boot timeout, and a newline sender that settles first gives the sender error. A console that closed during boot without a prompt ends in ran-out-of-input or a command timeout, provided the reader settled first and the drain read and the command write succeeded. Once the handshake as written has passed (prompt seen or the boot stream ended) and the drain read succeeded, a failed command write gives an I/O error. |
| `Vm.RunIntended` | src/vm.rs:86-134 | With the corrected handshake, a session succeeds exactly when, in addition to the other conditions of `Vm.Run`, the boot output showed the prompt. Spawn failures and a losing boot race give the same errors as in `Vm.Run`. |
| `Vm.RunAgreesWhenPromptSeen` | src/vm.rs:52-55 | When the boot output shows the prompt, the run as written and the intended run give the same result; every intended success is a success as written. |
| `Vm.RunAsWrittenProceedsAfterBrokenBoot` | src/vm.rs:52-55 | A console whose boot output fails to read before any prompt, and that answers the command with a prompt line, makes the run as written succeed with that line while the intended run fails with an I/O error. |
| `Text.TranscriptLength` | src/vm.rs:31 | A transcript's length is the sum of line length + 1 over its lines. |
| `Text.TranscriptAppend` | src/vm.rs:31 | Adding a line to the transcript appends `line + "\n"` to its text, as each scanner step does to its buffer. |
| `Text.TranscriptTerminated` | src/vm.rs:31 | A non-empty transcript ends with a newline. |
| `Text.SplitTranscript` | src/vm.rs:28-31 | Splitting the transcript of newline-free lines at newlines gives back the lines. |

## Findings

| source | as written | input that shows it | evidently intended | confidence | as-written member | corrected member |
|---|---|---|---|---|---|---|
| src/vm.rs:52-55 | `ready` discards `prompt_check`'s result (`_ = prompt_check(..) => break`). Any return of the scanner, including "ran out of input" or a read error, counts as readiness, and the command is then written. | The console closes before printing any line, for instance an emulator that exits at once. The handshake succeeds with no prompt ever seen. A boot line that fails to read, on a console that stays alive, lets the command be sent and the run succeed. | Readiness only when a line containing the prompt was read. Otherwise the scanner's error is reported. | medium; not executed | `Vm.ReadyAsWritten`, `Vm.ReadyAsWrittenAcceptsClosedConsole`, `Vm.Run`, `Vm.RunAsWrittenProceedsAfterBrokenBoot` | `Vm.Ready`, `Vm.RunIntended` |

## Left out

- Postgres connections, the spawned connection tasks and the `FOR UPDATE` row locking across workers. The claim is one atomic step over the tables. Exclusion between concurrent workers is not modelled.
- Decoding errors of `row.try_get`: columns are typed in the model, so a NULL in a non-optional column is not represented. Such an error would come after the claim's update has already happened.
- The `i32` to `u64` cast of `command_timeout` and its conversion to a `Duration`: the timeout is an abstract integer.
- Job ids are unbounded integers rather than `i32`.
- The `tokio::select!` races, the sleeps, the once-per-second newline sender, the two-second wait after boot and the 512-byte drain read. Their outcome is a parameter: which task settles first, and whether the drain read succeeds. A drain read that blocks forever is not represented.
- The constants `START_TIMEOUT` and `START_WAIT`: only the timer's outcome matters once time is abstract.
- Byte-level stream behaviour: the console is modelled after line splitting. Bytes buffered by one scanner's reader and lost when it is dropped are not represented. The stdin traffic of the newline sender is not represented either.
- Process spawn, pipe acquisition, `kill_on_drop` and the detached `child.wait()` task. Their observable effect is the spawn outcome of a session. Termination of the process is not modelled.
- `main`'s environment loading, logging, the endless poll loop and its two-second pause.
- Printing and logging inside `do_job`, including the elapsed-time computation.

=== FILE: status.dfy ===
/** The job status of main.rs: a closed set of four values kept in the store
    as text. */
module JobStatus {

  datatype Status = Queued | Running | Complete | Error

  /** The four texts the store holds for a status. */
  const Names: set<string> := {"QUEUED", "RUNNING", "COMPLETE", "ERROR"}

  /** `Status::to_str`: the text written to the status column. */
  function ToStr(s: Status): (r: string)
    ensures r in Names
    ensures FromStr(r) == s
  {
    match s
    case Queued => "QUEUED"
    case Running => "RUNNING"
    case Complete => "COMPLETE"
    case Error => "ERROR"
  }

  /** `Status::from_str`: total; any text other than the four names reads as
      `Error`. */
  function FromStr(t: string): (s: Status)
    ensures t !in Names ==> s == Error
  {
    match t
    case "QUEUED" => Queued
    case "RUNNING" => Running
    case "COMPLETE" => Complete
    case "ERROR" => Error
    case _ => Error
  }

  /** Distinct statuses are stored as distinct texts. */
  lemma ToStrInjective(a: Status, b: Status)
    requires ToStr(a) == ToStr(b)
    ensures a == b
  {
  }

  /** Each of the four names is the text of the status it decodes to, so
      `ToStr` maps onto `Names`. */
  lemma NameRoundTrip(t: string)
    requires t in Names
    ensures ToStr(FromStr(t)) == t
  {
  }
}

=== FILE: store.dfy ===
/** The job store of main.rs: the rows the worker reads and writes, the
    atomic claim of `pull_job` and the column-restricted update of
    `save_job`. The three tables are finite maps from row id to row. */
module Store {
  import opened Wrappers
  import opened JobStatus

  /** Timestamps are abstract instants. */
  type Time = int

  /** A row of `jobs`: the status text and the columns the claim and the
      save touch, plus the references to the test and group rows. */
  datatype JobRow = JobRow(
    status: string,
    createdAt: Time,
    startedAt: Option<Time>,
    completedAt: Option<Time>,
    output: string,
    testId: int,
    groupId: int)

  /** A row of `tests`: how to boot the emulator and what to run. */
  datatype TestRow = TestRow(
    memsnapshot: Option<string>,
    testsImage: Option<string>,
    baseImage: string,
    prompt: string,
    command: string,
    commandTimeout: int)

  /** A row of `groups`. */
  datatype GroupRow = GroupRow(gitUrl: string)

  datatype Db = Db(jobs: map<int, JobRow>, tests: map<int, TestRow>, groups: map<int, GroupRow>)

  /** The in-memory job: the joined row the claim returns. */
  datatype Job = Job(
    id: int,
    status: Status,
    startedAt: Option<Time>,
    completedAt: Option<Time>,
    memsnapshot: Option<string>,
    testsImage: Option<string>,
    baseImage: string,
    prompt: string,
    command: string,
    commandTimeout: int,
    output: string,
    gitUrl: string)

  /** The fields of a job the worker does not own agree. */
  predicate SameDefinition(a: Job, b: Job)
  {
    && a.id == b.id
    && a.memsnapshot == b.memsnapshot && a.testsImage == b.testsImage
    && a.baseImage == b.baseImage && a.prompt == b.prompt
    && a.command == b.command && a.commandTimeout == b.commandTimeout
    && a.gitUrl == b.gitUrl
  }

  predicate IsQueued(row: JobRow)
  {
    row.status == "QUEUED"
  }

  predicate NoneQueued(jobs: map<int, JobRow>)
  {
    forall k :: k in jobs ==> !IsQueued(jobs[k])
  }

  /** `id` is a queued job created no later than any other queued job. */
  predicate Oldest(jobs: map<int, JobRow>, id: int)
  {
    && id in jobs && IsQueued(jobs[id])
    && forall k :: k in jobs && IsQueued(jobs[k]) ==> jobs[id].createdAt <= jobs[k].createdAt
  }

  /** The job's test and group rows exist, so the claim's join matches. */
  predicate Joined(db: Db, id: int)
    requires id in db.jobs
  {
    db.jobs[id].testId in db.tests && db.jobs[id].groupId in db.groups
  }

  /** The joined record of a job row, as the claim's `RETURNING` list maps it
      into a `Job`; the status text is decoded by `FromStr`. */
  function Load(db: Db, id: int): (job: Job)
    requires id in db.jobs && Joined(db, id)
    ensures job.id == id
    ensures db.jobs[id].status in Names ==> ToStr(job.status) == db.jobs[id].status
    ensures db.jobs[id].status !in Names ==> job.status == Error
    ensures job.startedAt == db.jobs[id].startedAt && job.completedAt == db.jobs[id].completedAt
      && job.output == db.jobs[id].output
  {
    var row := db.jobs[id];
    var test := db.tests[row.testId];
    Job(id, FromStr(row.status), row.startedAt, row.completedAt,
        test.memsnapshot, test.testsImage, test.baseImage, test.prompt,
        test.command, test.commandTimeout, row.output, db.groups[row.groupId].gitUrl)
  }

  /** The claim's `SET` list applied to one row. */
  function MarkRunning(row: JobRow, now: Time): (r: JobRow)
    ensures !IsQueued(r) && FromStr(r.status) == Running
    ensures r.startedAt == Some(now)
    ensures r.createdAt == row.createdAt && r.completedAt == row.completedAt && r.output == row.output
    ensures r.testId == row.testId && r.groupId == row.groupId
  {
    row.(status := "RUNNING", startedAt := Some(now))
  }

  /** The claim's subquery: some queued row with the least creation time, or
      none when no row is queued. Rows created at the same instant are not
      ordered, so any of them may be picked. */
  method OldestQueued(jobs: map<int, JobRow>) returns (r: Option<int>)
    ensures r.None? <==> NoneQueued(jobs)
    ensures r.Some? ==> Oldest(jobs, r.value)
  {
    r := None;
    var todo := jobs.Keys;
    while todo != {}
      invariant todo <= jobs.Keys
      invariant r.None? ==> forall k :: k in jobs && k !in todo ==> !IsQueued(jobs[k])
      invariant r.Some? ==> r.value in jobs && IsQueued(jobs[r.value])
      invariant r.Some? ==> forall k :: k in jobs && k !in todo && IsQueued(jobs[k]) ==>
        jobs[r.value].createdAt <= jobs[k].createdAt
      decreases todo
    {
      // The guard makes `todo` non-empty; this case split puts that fact in
      // the form the such-that statement below needs to find its witness.
      if forall j :: j !in todo {
        assert false;
      }
      var k :| k in todo;
      if IsQueued(jobs[k]) && (r.None? || jobs[k].createdAt < jobs[r.value].createdAt) {
        r := Some(k);
      }
      todo := todo - {k};
    }
    if r.Some? {
      var oldest := r.value;
      assert !(forall k :: k in jobs ==> !IsQueued(jobs[k])) by {
        assert IsQueued(jobs[oldest]);
      }
    }
  }

  /** `pull_job`'s statement as one atomic step at instant `now`: the oldest
      queued row, when its test and group rows exist, becomes `RUNNING` with
      `started_at` stamped, and its joined record is returned. When no row is
      queued, or the picked row has no joined rows, nothing is returned and
      the store is unchanged. */
  method Claim(db: Db, now: Time) returns (job: Option<Job>, db': Db)
    ensures db'.tests == db.tests && db'.groups == db.groups
    ensures job.None? ==> db' == db
    ensures NoneQueued(db.jobs) ==> job.None?
    ensures job.None? && !NoneQueued(db.jobs) ==>
      exists id :: Oldest(db.jobs, id) && !Joined(db, id)
    ensures !NoneQueued(db.jobs) && (forall id :: Oldest(db.jobs, id) ==> Joined(db, id)) ==>
      job.Some?
    ensures job.Some? ==>
      var id := job.value.id;
      && Oldest(db.jobs, id) && Joined(db, id)
      && db'.jobs.Keys == db.jobs.Keys
      && (forall k :: k in db.jobs && k != id ==> db'.jobs[k] == db.jobs[k])
      && db'.jobs[id] == MarkRunning(db.jobs[id], now)
      && job.value == Load(db', id)
      && job.value.status == Running && job.value.startedAt == Some(now)
  {
    var candidate := OldestQueued(db.jobs);
    if candidate.None? {
      return None, db;
    }
    var id := candidate.value;
    if !Joined(db, id) {
      return None, db;
    }
    db' := db.(jobs := db.jobs[id := MarkRunning(db.jobs[id], now)]);
    job := Some(Load(db', id));
  }

  /** `save_job`: writes `status`, `completed_at`, `started_at` and `output`
      of the job into the row with its id; no row matches an unknown id. */
  function Save(db: Db, job: Job): (db': Db)
    ensures db'.tests == db.tests && db'.groups == db.groups
    ensures db'.jobs.Keys == db.jobs.Keys
    ensures forall k :: k in db.jobs && k != job.id ==> db'.jobs[k] == db.jobs[k]
    ensures job.id !in db.jobs ==> db' == db
    ensures job.id in db.jobs ==>
      var row, row' := db.jobs[job.id], db'.jobs[job.id];
      && row'.status == ToStr(job.status)
      && row'.startedAt == job.startedAt && row'.completedAt == job.completedAt
      && row'.output == job.output
      && row'.createdAt == row.createdAt && row'.testId == row.testId && row'.groupId == row.groupId
  {
    if job.id !in db.jobs then db
    else
      var row := db.jobs[job.id];
      var row' := row.(status := ToStr(job.status), completedAt := job.completedAt,
                       startedAt := job.startedAt, output := job.output);
      db.(jobs := db.jobs[job.id := row'])
  }

  /** Saving the same job twice leaves the store as saving it once. */
  /** Loading a row right after the claim's `SET` gives the job loaded
      before it, now `Running` and started at the claim's instant: the
      claim's `RETURNING` record is the claimed row's own job. */
  lemma LoadAfterMarkRunning(db: Db, id: int, now: Time)
    requires id in db.jobs && Joined(db, id)
    ensures var claimed := db.(jobs := db.jobs[id := MarkRunning(db.jobs[id], now)]);
      && Joined(claimed, id)
      && Load(claimed, id) == Load(db, id).(status := Running, startedAt := Some(now))
  {
  }

  lemma SaveIdempotent(db: Db, job: Job)
    ensures Save(Save(db, job), job) == Save(db, job)
  {
  }

  /** Loading a saved job back gives the job itself, when the job was loaded
      from that row and only its worker-owned fields changed since. */
  lemma SaveLoadRoundTrip(db: Db, job: Job)
    requires job.id in db.jobs && Joined(db, job.id)
    requires SameDefinition(job, Load(db, job.id))
    ensures job.id in Save(db, job).jobs && Joined(Save(db, job), job.id)
    ensures Load(Save(db, job), job.id) == job
  {
  }
}

=== FILE: text.dfy ===
/** String and line helpers: substring containment as Rust's `str::contains`,
    the newline-terminated transcript the console scanner accumulates, and
    the splitting of text back into lines. */
module Text {

  /** `sub` occurs in `s` starting at index `i`. */
  predicate OccursAt(s: string, sub: string, i: nat)
  {
    i + |sub| <= |s| && s[i..i + |sub|] == sub
  }

  /** Substring containment; the empty pattern is contained in every string. */
  predicate Contains(s: string, sub: string)
  {
    exists i: nat :: i <= |s| && OccursAt(s, sub, i)
  }

  /** The concatenation of `line + "\n"` over `lines`, in order. */
  function Transcript(lines: seq<string>): string
  {
    if |lines| == 0 then "" else lines[0] + "\n" + Transcript(lines[1..])
  }

  /** The sum of `|line| + 1` over `lines`. */
  function TerminatedLength(lines: seq<string>): nat
  {
    if |lines| == 0 then 0 else |lines[0]| + 1 + TerminatedLength(lines[1..])
  }

  /** No line of `lines` holds a newline character, as is the case for the
      lines a line reader yields. */
  predicate SingleLines(lines: seq<string>)
  {
    forall k :: 0 <= k < |lines| ==> '\n' !in lines[k]
  }

  /** Index of the first newline of `s`, or `|s|` when there is none. */
  function LineEnd(s: string): (i: nat)
    ensures i <= |s|
    ensures i < |s| ==> s[i] == '\n'
    ensures forall j :: 0 <= j < i ==> s[j] != '\n'
  {
    if |s| == 0 || s[0] == '\n' then 0 else 1 + LineEnd(s[1..])
  }

  /** Splits text into lines at each newline; a final newline ends the last
      line rather than starting an empty one. */
  function SplitLines(s: string): seq<string>
    decreases |s|
  {
    if |s| == 0 then []
    else
      var i := LineEnd(s);
      if i == |s| then [s] else [s[..i]] + SplitLines(s[i + 1..])
  }

  /** Every line counts its own length plus its terminating newline. */
  lemma {:induction false} TranscriptLength(lines: seq<string>)
    ensures |Transcript(lines)| == TerminatedLength(lines)
  {
    if |lines| > 0 {
      TranscriptLength(lines[1..]);
    }
  }

  /** Appending a line to the transcript appends `line + "\n"` to its text,
      which is what each iteration of the scanner does to its buffer. */
  lemma {:induction false} TranscriptAppend(lines: seq<string>, line: string)
    ensures Transcript(lines + [line]) == Transcript(lines) + line + "\n"
  {
    if |lines| == 0 {
      assert lines + [line] == [line];
    } else {
      assert (lines + [line])[1..] == lines[1..] + [line];
      TranscriptAppend(lines[1..], line);
    }
  }

  /** A non-empty transcript ends with a newline. */
  lemma {:induction false} TranscriptTerminated(lines: seq<string>)
    requires |lines| > 0
    ensures |Transcript(lines)| > 0 && Transcript(lines)[|Transcript(lines)| - 1] == '\n'
  {
    var init := lines[..|lines| - 1];
    assert lines == init + [lines[|lines| - 1]];
    TranscriptAppend(init, lines[|lines| - 1]);
  }

  /** Splitting the transcript of newline-free lines gives back the lines. */
  lemma {:induction false} SplitTranscript(lines: seq<string>)
    requires SingleLines(lines)
    ensures SplitLines(Transcript(lines)) == lines
  {
    if |lines| > 0 {
      var head := lines[0];
      var rest := Transcript(lines[1..]);
      var s := head + "\n" + rest;
      assert s == Transcript(lines);
      LineEndOfLine(head, rest);
      assert s[..|head|] == head;
      assert s[|head| + 1..] == rest;
      assert SingleLines(lines[1..]) by {
        forall k | 0 <= k < |lines[1..]|
          ensures '\n' !in lines[1..][k]
        {
          assert lines[1..][k] == lines[k + 1];
        }
      }
      SplitTranscript(lines[1..]);
      assert lines == [head] + lines[1..];
    }
  }

  /** In `line + "\n" + rest`, the first newline is the one after `line`. */
  lemma LineEndOfLine(line: string, rest: string)
    requires '\n' !in line
    ensures LineEnd(line + "\n" + rest) == |line|
  {
    var s := line + "\n" + rest;
    assert forall j :: 0 <= j < |line| ==> s[j] == line[j];
    assert s[|line|] == '\n';
  }
}

=== FILE: vm.dfy ===
/** The emulator session of vm.rs: the prompt-watching line scanner, the boot
    handshake, the framing of the one command, the QEMU argument vector and
    the session that strings them together.

    Timers, the keepalive newline task and process plumbing are abstracted:
    a `Session` records, for one launched emulator, what its console prints
    and which of the racing tasks settles first. */
module Vm {
  import opened Wrappers
  import opened Text

  /** The failures a session can end in. */
  datatype VmError =
    | SpawnFailed     // the emulator process could not be started
    | NoStdin         // its stdin pipe could not be taken
    | NoStdout        // its stdout pipe could not be taken
    | BootTimeout     // the boot timer fired before a prompt was read
    | SenderFinished  // the keepalive newline task stopped (a write failed)
    | CommandTimeout  // the command timer fired before the prompt came back
    | RanOutOfInput   // the console closed before a line held the prompt
    | IoFailed        // a read or write on a pipe failed

  /** How a console stream goes on after its listed lines: it closes (end of
      file), a read fails, or it stays open and prints nothing more. */
  datatype FeedEnd = Closed | Broken | Silent

  /** The lines a console prints, as the line reader yields them, and how the
      stream goes on after them. */
  datatype Feed = Feed(lines: seq<string>, end: FeedEnd)

  /** What a scan of the console does: it returns a result, or it waits
      forever because the stream stays open without another line. */
  datatype Scan = Returns(result: Result<string, VmError>) | Blocks

  /** Some line of `lines` contains `prompt`. */
  predicate PromptSeen(lines: seq<string>, prompt: string)
  {
    exists i :: 0 <= i < |lines| && Contains(lines[i], prompt)
  }

  /** Index of the first line containing `prompt`. */
  function FirstPrompt(lines: seq<string>, prompt: string): (k: nat)
    requires PromptSeen(lines, prompt)
    ensures k < |lines| && Contains(lines[k], prompt)
    ensures forall j :: 0 <= j < k ==> !Contains(lines[j], prompt)
  {
    if Contains(lines[0], prompt) then 0
    else
      assert PromptSeen(lines[1..], prompt) by {
        var i :| 0 <= i < |lines| && Contains(lines[i], prompt);
        assert lines[1..][i - 1] == lines[i];
      }
      1 + FirstPrompt(lines[1..], prompt)
  }

  /** What the scanner does once the listed lines are used up without a
      prompt. */
  function AtEnd(end: FeedEnd): Scan
  {
    match end
    case Closed => Returns(Failure(RanOutOfInput))
    case Broken => Returns(Failure(IoFailed))
    case Silent => Blocks
  }

  /** `prompt_check`: reads lines, appending each with a newline to the
      output, and returns the output at the first line holding the prompt. */
  function PromptCheck(feed: Feed, prompt: string): (s: Scan)
    ensures PromptSeen(feed.lines, prompt) ==>
      s == Returns(Success(Transcript(feed.lines[..FirstPrompt(feed.lines, prompt) + 1])))
    ensures !PromptSeen(feed.lines, prompt) ==> s == AtEnd(feed.end)
    decreases |feed.lines|
  {
    if |feed.lines| == 0 then AtEnd(feed.end)
    else
      var line := feed.lines[0];
      if Contains(line, prompt) then
        assert PromptSeen(feed.lines, prompt) by {
          assert Contains(feed.lines[0], prompt);
        }
        assert FirstPrompt(feed.lines, prompt) == 0;
        assert feed.lines[..1][1..] == [];
        assert Transcript(feed.lines[..1]) == line + "\n";
        Returns(Success(line + "\n"))
      else
        var rest := Feed(feed.lines[1..], feed.end);
        var s' := PromptCheck(rest, prompt);
        PromptSeenPastLine(feed.lines, prompt);
        match s'
        case Returns(Success(t)) => Returns(Success(line + "\n" + t))
        case _ => s'
  }

  /** Past a first line without the prompt, the prompt is seen in the rest
      exactly when it is seen at all, and one line further on. */
  lemma PromptSeenPastLine(lines: seq<string>, prompt: string)
    requires |lines| > 0 && !Contains(lines[0], prompt)
    ensures PromptSeen(lines, prompt) <==> PromptSeen(lines[1..], prompt)
    ensures PromptSeen(lines, prompt) ==>
      && FirstPrompt(lines, prompt) == FirstPrompt(lines[1..], prompt) + 1
      && lines[..FirstPrompt(lines, prompt) + 1][1..] == lines[1..][..FirstPrompt(lines[1..], prompt) + 1]
  {
  }

  /** A successful scan's transcript, read back as lines, is the lines up to
      and including the first prompt line: the last of them holds the prompt,
      no earlier one does, and each was stored with its newline. */
  lemma PromptCheckTranscript(feed: Feed, prompt: string)
    requires SingleLines(feed.lines)
    requires PromptCheck(feed, prompt).Returns? && PromptCheck(feed, prompt).result.Success?
    ensures var t := PromptCheck(feed, prompt).result.value;
      var lines := SplitLines(t);
      && 0 < |lines| <= |feed.lines|
      && lines == feed.lines[..|lines|]
      && Contains(lines[|lines| - 1], prompt)
      && (forall j :: 0 <= j < |lines| - 1 ==> !Contains(lines[j], prompt))
      && |t| == TerminatedLength(lines)
  {
    var k := FirstPrompt(feed.lines, prompt);
    var consumed := feed.lines[..k + 1];
    assert SingleLines(consumed) by {
      forall j | 0 <= j < |consumed|
        ensures '\n' !in consumed[j]
      {
        assert consumed[j] == feed.lines[j];
      }
    }
    SplitTranscript(consumed);
    TranscriptLength(consumed);
  }

  /** Which of the three tasks racing during boot settles first, should the
      line reader settle at all: the boot timer, the keepalive newline
      sender (it only stops when a write fails), or the line reader. */
  datatype BootRace = TimerFirst | SenderFirst | ReaderFirst

  /** `ready` as written: the line reader's own result is discarded, so any
      return of the scanner counts as readiness, found prompt or not. After
      that a best-effort drain read follows, which may fail. */
  function ReadyAsWritten(boot: Feed, prompt: string, race: BootRace, drainOk: bool): (r: Result<(), VmError>)
    ensures r.Success? <==>
      race == ReaderFirst && drainOk && (PromptSeen(boot.lines, prompt) || boot.end != Silent)
  {
    match race
    case TimerFirst => Failure(BootTimeout)
    case SenderFirst => Failure(SenderFinished)
    case ReaderFirst =>
      // a reader that blocks never settles, so the boot timer does
      if PromptCheck(boot, prompt).Blocks? then Failure(BootTimeout)
      else if drainOk then Success(())
      else Failure(IoFailed)
  }

  /** A console that closes before printing anything (an emulator that exits
      at once) passes the handshake as written, while the intended handshake
      reports that the input ran out. */
  lemma ReadyAsWrittenAcceptsClosedConsole(prompt: string)
    ensures ReadyAsWritten(Feed([], Closed), prompt, ReaderFirst, true).Success?
    ensures Ready(Feed([], Closed), prompt, ReaderFirst, true) == Failure(RanOutOfInput)
  {
  }

  /** `ready` as intended: it succeeds only when the line reader settles
      first having found the prompt and the drain read succeeds. The timer
      and the sender settling first are always failures, and the scanner's
      own failure is passed on. */
  function Ready(boot: Feed, prompt: string, race: BootRace, drainOk: bool): (r: Result<(), VmError>)
    ensures r.Success? <==> race == ReaderFirst && PromptSeen(boot.lines, prompt) && drainOk
    ensures race == TimerFirst ==> r == Failure(BootTimeout)
    ensures race == SenderFirst ==> r == Failure(SenderFinished)
    ensures race == ReaderFirst && !PromptSeen(boot.lines, prompt) ==>
      r == Failure(match boot.end
                   case Closed => RanOutOfInput
                   case Broken => IoFailed
                   case Silent => BootTimeout)
  {
    match race
    case TimerFirst => Failure(BootTimeout)
    case SenderFirst => Failure(SenderFinished)
    case ReaderFirst =>
      match PromptCheck(boot, prompt)
      case Blocks => Failure(BootTimeout)
      case Returns(Failure(e)) => Failure(e)
      case Returns(Success(_)) => if drainOk then Success(()) else Failure(IoFailed)
  }

  /** The text written to the emulator's stdin for `command`. */
  function CommandLine(command: string): (r: string)
    ensures |r| == |command| + 2 && r[..|command|] == command
    ensures r[|command|..] == "\r\n"
  {
    command + "\r\n"
  }

  /** `run_command`: writes the command with a carriage return and newline,
      then races a timer of `timeout` seconds against the scanner over what
      the console prints in response. `timesOut(t)` tells whether a timer
      of `t` seconds fires before the scanner returns; a scanner that blocks
      always loses. */
  function RunCommand(prompt: string, command: string, timeout: int, stdinOk: bool,
                      respond: string -> Feed, timesOut: int -> bool): (r: Result<string, VmError>)
    ensures var lines := respond(CommandLine(command)).lines;
      r.Success? <==> stdinOk && !timesOut(timeout) && PromptSeen(lines, prompt)
    ensures var lines := respond(CommandLine(command)).lines;
      r.Success? ==> r.value == Transcript(lines[..FirstPrompt(lines, prompt) + 1])
    ensures !stdinOk ==> r == Failure(IoFailed)
    ensures var feed := respond(CommandLine(command));
      stdinOk && !PromptSeen(feed.lines, prompt) ==>
        r == Failure(match feed.end
                     case Closed => if timesOut(timeout) then CommandTimeout else RanOutOfInput
                     case Broken => if timesOut(timeout) then CommandTimeout else IoFailed
                     case Silent => CommandTimeout)
  {
    if !stdinOk then Failure(IoFailed)
    else
      match PromptCheck(respond(CommandLine(command)), prompt)
      case Blocks => Failure(CommandTimeout)
      case Returns(result) => if timesOut(timeout) then Failure(CommandTimeout) else result
  }

  /** The memory size passed to QEMU. The caller in main.rs passes a memory
      argument from its environment, but `run` takes six parameters and fixes
      the size here; the model follows `run`. */
  const Memory: string := "1G"

  /** Prefix of the `-incoming` value: QEMU reads the snapshot through gzip. */
  const IncomingExec: string := "exec: gzip -c -d "

  /** The eight tokens after the disk image, always present. */
  const FixedFlags: seq<string> :=
    ["-m", Memory, "-netdev", "user,id=n1", "-device", "virtio-net-pci,netdev=n1",
     "-nographic", "-snapshot"]

  /** The QEMU argument vector built by `run`: the disk image and fixed
      flags, then the snapshot to resume from, then the scripts CD image. */
  function QemuArgs(image: string, scriptsImage: Option<string>, snapshot: Option<string>): (args: seq<string>)
    ensures |args| == 10 + (if snapshot.Some? then 2 else 0) + (if scriptsImage.Some? then 2 else 0)
    ensures args[0] == "-hda" && args[1] == image && args[2..10] == FixedFlags
    ensures snapshot.Some? ==> args[10] == "-incoming" && args[11] == IncomingExec + snapshot.value
    ensures scriptsImage.Some? ==> args[|args| - 2] == "-cdrom" && args[|args| - 1] == scriptsImage.value
  {
    var base := ["-hda", image] + FixedFlags;
    var withSnapshot := match snapshot
      case Some(path) => base + ["-incoming", IncomingExec + path]
      case None => base;
    match scriptsImage
    case Some(path) => withSnapshot + ["-cdrom", path]
    case None => withSnapshot
  }

  /** The three inputs of an argument vector. */
  datatype Launch = Launch(image: string, scriptsImage: Option<string>, snapshot: Option<string>)

  /** Recovers the inputs from an argument vector of the shape `QemuArgs`
      builds, and nothing from any other vector. */
  function ParseQemuArgs(args: seq<string>): Option<Launch>
  {
    if |args| < 10 || args[0] != "-hda" || args[2..10] != FixedFlags then None
    else
      var rest := args[10..];
      var hasSnapshot := |rest| >= 2 && rest[0] == "-incoming"
                         && IncomingExec <= rest[1];
      var snapshot := if hasSnapshot then Some(rest[1][|IncomingExec|..]) else None;
      var tail := if hasSnapshot then rest[2..] else rest;
      if |tail| == 0 then Some(Launch(args[1], None, snapshot))
      else if |tail| == 2 && tail[0] == "-cdrom" then Some(Launch(args[1], Some(tail[1]), snapshot))
      else None
  }

  /** Parsing an argument vector built by `QemuArgs` gives back its inputs. */
  lemma ParseQemuArgsRoundTrip(image: string, scriptsImage: Option<string>, snapshot: Option<string>)
    ensures ParseQemuArgs(QemuArgs(image, scriptsImage, snapshot)) == Some(Launch(image, scriptsImage, snapshot))
  {
  }

  /** Every vector the parser accepts is the one `QemuArgs` builds from the
      parsed inputs, so the builder's vectors are exactly the accepted ones. */
  lemma ParseQemuArgsSound(args: seq<string>)
    requires ParseQemuArgs(args).Some?
    ensures var l := ParseQemuArgs(args).value;
      QemuArgs(l.image, l.scriptsImage, l.snapshot) == args
  {
    var l := ParseQemuArgs(args).value;
    var rest := args[10..];
    var hasSnapshot := |rest| >= 2 && rest[0] == "-incoming" && IncomingExec <= rest[1];
    if hasSnapshot {
      assert IncomingExec + rest[1][|IncomingExec|..] == rest[1];
      assert args == args[..10] + rest[..2] + rest[2..];
    } else {
      assert args == args[..10] + rest;
    }
    assert args[..10] == ["-hda", args[1]] + FixedFlags;
  }

  /** How a process launch went: spawned with both pipes, or one of the
      start-up failures. */
  datatype Spawn = Spawned | SpawnError | StdinMissing | StdoutMissing

  /** The observable behaviour of one emulator process: how it started, what
      its console prints while booting, how the boot race goes, whether the
      post-boot drain read and the command write succeed, what the console
      prints in response to the text written to stdin, and which command
      timeouts fire before the scanner returns. */
  datatype Session = Session(
    spawn: Spawn,
    boot: Feed,
    bootRace: BootRace,
    drainOk: bool,
    stdinOk: bool,
    respond: string -> Feed,
    timesOut: int -> bool)

  /** An emulator maps the argument vector it is started with to a session. */
  type Emulator = seq<string> -> Session

  /** What the console prints in reply to the text written to stdin once the
      boot handshake is over. A console that closed during boot without a
      prompt stays closed; otherwise it replies as the session says. */
  function ReplyFeed(s: Session, prompt: string): string -> Feed
  {
    if !PromptSeen(s.boot.lines, prompt) && s.boot.end == Closed then _ => Feed([], Closed)
    else s.respond
  }

  /** `run` as written: launches the emulator with the argument vector, goes
      through the boot handshake as written (`ReadyAsWritten`), runs the one
      command and returns its transcript; the boot lines are not part of the
      result. Because the handshake accepts a boot scan that ended without a
      prompt, a console whose boot output hit a read error still gets the
      command and can succeed. */
  function Run(command: string, timeout: int, image: string, scriptsImage: Option<string>,
               snapshot: Option<string>, prompt: string, emulator: Emulator): (r: Result<string, VmError>)
    ensures var s := emulator(QemuArgs(image, scriptsImage, snapshot));
      var lines := s.respond(CommandLine(command)).lines;
      r.Success? <==>
        && s.spawn == Spawned
        && s.bootRace == ReaderFirst && (PromptSeen(s.boot.lines, prompt) || s.boot.end == Broken)
        && s.drainOk && s.stdinOk && !s.timesOut(timeout) && PromptSeen(lines, prompt)
    ensures var s := emulator(QemuArgs(image, scriptsImage, snapshot));
      var lines := s.respond(CommandLine(command)).lines;
      r.Success? ==> r.value == Transcript(lines[..FirstPrompt(lines, prompt) + 1])
    ensures var s := emulator(QemuArgs(image, scriptsImage, snapshot));
      s.spawn == Spawned && s.bootRace != ReaderFirst ==> r.Failure? && (r.error == BootTimeout || r.error == SenderFinished)
    ensures var s := emulator(QemuArgs(image, scriptsImage, snapshot));
      && (s.spawn == SpawnError ==> r == Failure(SpawnFailed))
      && (s.spawn == StdinMissing ==> r == Failure(NoStdin))
      && (s.spawn == StdoutMissing ==> r == Failure(NoStdout))
      && (s.spawn == Spawned && s.bootRace == TimerFirst ==> r == Failure(BootTimeout))
      && (s.spawn == Spawned && s.bootRace == SenderFirst ==> r == Failure(SenderFinished))
    ensures var s := emulator(QemuArgs(image, scriptsImage, snapshot));
      && s.spawn == Spawned && s.bootRace == ReaderFirst && s.drainOk && s.stdinOk
      && !PromptSeen(s.boot.lines, prompt) && s.boot.end == Closed
      ==> r == Failure(if s.timesOut(timeout) then CommandTimeout else RanOutOfInput)
    ensures var s := emulator(QemuArgs(image, scriptsImage, snapshot));
      && s.spawn == Spawned && s.bootRace == ReaderFirst && s.drainOk && !s.stdinOk
      && (PromptSeen(s.boot.lines, prompt) || s.boot.end != Silent)
      ==> r == Failure(IoFailed)
  {
    var s := emulator(QemuArgs(image, scriptsImage, snapshot));
    match s.spawn
    case SpawnError => Failure(SpawnFailed)
    case StdinMissing => Failure(NoStdin)
    case StdoutMissing => Failure(NoStdout)
    case Spawned =>
      match ReadyAsWritten(s.boot, prompt, s.bootRace, s.drainOk)
      case Failure(e) => Failure(e)
      case Success(_) =>
        assert !PromptSeen(s.boot.lines, prompt) && s.boot.end == Closed ==>
          !PromptSeen(ReplyFeed(s, prompt)(CommandLine(command)).lines, prompt);
        RunCommand(prompt, command, timeout, s.stdinOk, ReplyFeed(s, prompt), s.timesOut)
  }

  /** `run` with the intended boot handshake `Ready`: the command is only
      sent once a boot line held the prompt. */
  function RunIntended(command: string, timeout: int, image: string, scriptsImage: Option<string>,
                       snapshot: Option<string>, prompt: string, emulator: Emulator): (r: Result<string, VmError>)
    ensures var s := emulator(QemuArgs(image, scriptsImage, snapshot));
      var lines := s.respond(CommandLine(command)).lines;
      r.Success? <==>
        && s.spawn == Spawned
        && s.bootRace == ReaderFirst && PromptSeen(s.boot.lines, prompt) && s.drainOk
        && s.stdinOk && !s.timesOut(timeout) && PromptSeen(lines, prompt)
    ensures var s := emulator(QemuArgs(image, scriptsImage, snapshot));
      var lines := s.respond(CommandLine(command)).lines;
      r.Success? ==> r.value == Transcript(lines[..FirstPrompt(lines, prompt) + 1])
    ensures var s := emulator(QemuArgs(image, scriptsImage, snapshot));
      s.spawn == Spawned && s.bootRace != ReaderFirst ==> r.Failure? && (r.error == BootTimeout || r.error == SenderFinished)
    ensures var s := emulator(QemuArgs(image, scriptsImage, snapshot));
      && (s.spawn == SpawnError ==> r == Failure(SpawnFailed))
      && (s.spawn == StdinMissing ==> r == Failure(NoStdin))
      && (s.spawn == StdoutMissing ==> r == Failure(NoStdout))
      && (s.spawn == Spawned && s.bootRace == TimerFirst ==> r == Failure(BootTimeout))
      && (s.spawn == Spawned && s.bootRace == SenderFirst ==> r == Failure(SenderFinished))
  {
    var s := emulator(QemuArgs(image, scriptsImage, snapshot));
    match s.spawn
    case SpawnError => Failure(SpawnFailed)
    case StdinMissing => Failure(NoStdin)
    case StdoutMissing => Failure(NoStdout)
    case Spawned =>
      match Ready(s.boot, prompt, s.bootRace, s.drainOk)
      case Failure(e) => Failure(e)
      case Success(_) => RunCommand(prompt, command, timeout, s.stdinOk, s.respond, s.timesOut)
  }

  /** The two runs agree whenever the boot output shows the prompt, and
      every success of the intended run is a success of the run as written. */
  lemma RunAgreesWhenPromptSeen(command: string, timeout: int, image: string, scriptsImage: Option<string>,
                                snapshot: Option<string>, prompt: string, emulator: Emulator)
    ensures var s := emulator(QemuArgs(image, scriptsImage, snapshot));
      PromptSeen(s.boot.lines, prompt) ==>
        Run(command, timeout, image, scriptsImage, snapshot, prompt, emulator)
        == RunIntended(command, timeout, image, scriptsImage, snapshot, prompt, emulator)
    ensures RunIntended(command, timeout, image, scriptsImage, snapshot, prompt, emulator).Success? ==>
      Run(command, timeout, image, scriptsImage, snapshot, prompt, emulator).Success?
  {
  }

  /** A console whose boot output fails to read (a line that is not valid
      UTF-8, say) before any prompt, and that answers the command with a
      prompt line: the run as written sends the command and succeeds, the
      intended run reports the read error. */
  lemma RunAsWrittenProceedsAfterBrokenBoot()
    ensures var emulator: Emulator :=
      _ => Session(Spawned, Feed([], Broken), ReaderFirst, true, true, _ => Feed(["ok $"], Closed), _ => false);
      && Run("ls", 30, "debian.img", None, None, "$", emulator) == Success("ok $\n")
      && RunIntended("ls", 30, "debian.img", None, None, "$", emulator) == Failure(IoFailed)
  {
    var reply: seq<string> := ["ok $"];
    assert reply[0][3..4] == "$";
    assert OccursAt(reply[0], "$", 3);
    assert Contains(reply[0], "$");
    assert PromptSeen(reply, "$");
    assert FirstPrompt(reply, "$") == 0;
    assert reply[..1] == reply;
    assert Transcript(reply) == "ok $\n";
  }
}

=== FILE: worker.dfy ===
/** The job cycle of main.rs: `run_job` runs a claimed job in the emulator
    and rewrites its worker-owned fields, and `do_job` strings together the
    claim, the run and the save. */
module Worker {
  import opened Wrappers
  import opened Text
  import opened JobStatus
  import opened Store
  import Vm

  /** Why a cycle ends without a saved job: the store could not be reached
      (connection or statement failure), or a finished job lacks one of its
      timestamps. */
  datatype WorkerError = StoreUnavailable | FieldsNotSet

  /** The command line the emulator runs: the job's command, a space and the
      repository URL. */
  function VmCommand(job: Job): (r: string)
    ensures |r| == |job.command| + 1 + |job.gitUrl|
    ensures r[..|job.command|] == job.command && r[|job.command|] == ' '
    ensures r[|job.command| + 1..] == job.gitUrl
  {
    job.command + " " + job.gitUrl
  }

  /** The emulator run for a job. main.rs calls `vm::run` with a seventh
      argument, the memory size from the environment, which `run` in vm.rs
      does not declare; the model follows vm.rs, whose memory size is fixed. */
  function Execute(job: Job, emulator: Vm.Emulator): (r: Result<string, Vm.VmError>)
    ensures var s := emulator(Vm.QemuArgs(job.baseImage, job.testsImage, job.memsnapshot));
      var lines := s.respond(job.command + " " + job.gitUrl + "\r\n").lines;
      r.Success? <==>
        && s.spawn == Vm.Spawned && s.bootRace == Vm.ReaderFirst
        && (Vm.PromptSeen(s.boot.lines, job.prompt) || s.boot.end == Vm.Broken)
        && s.drainOk && s.stdinOk && !s.timesOut(job.commandTimeout)
        && Vm.PromptSeen(lines, job.prompt)
    ensures var s := emulator(Vm.QemuArgs(job.baseImage, job.testsImage, job.memsnapshot));
      var lines := s.respond(job.command + " " + job.gitUrl + "\r\n").lines;
      r.Success? ==> r.value == Transcript(lines[..Vm.FirstPrompt(lines, job.prompt) + 1])
  {
    Vm.Run(VmCommand(job), job.commandTimeout, job.baseImage, job.testsImage,
           job.memsnapshot, job.prompt, emulator)
  }

  /** `run_job` at instant `finishedAt`: on a successful run the job is
      `COMPLETE`, stamped as completed, and holds the transcript as output;
      every other field is the claimed job's. A failed run passes its error on. */
  function RunJob(job: Job, finishedAt: Time, emulator: Vm.Emulator): (r: Result<Job, Vm.VmError>)
    ensures r.Success? <==> Execute(job, emulator).Success?
    ensures r.Failure? ==> r.error == Execute(job, emulator).error
    ensures r.Success? ==>
      && SameDefinition(r.value, job)
      && r.value.status == Complete
      && r.value.startedAt == job.startedAt
      && r.value.completedAt == Some(finishedAt)
      && r.value.output == Execute(job, emulator).value
  {
    match Execute(job, emulator)
    case Success(output) =>
      Success(job.(status := Complete, completedAt := Some(finishedAt), output := output))
    case Failure(e) => Failure(e)
  }

  /** The text written to the emulator's stdin for a job is its command, a
      space, the repository URL and a carriage return and newline; a
      successful job's output is the console's response to exactly that text,
      up to and including the first line holding the prompt. */
  lemma RunJobTranscript(job: Job, finishedAt: Time, emulator: Vm.Emulator)
    requires RunJob(job, finishedAt, emulator).Success?
    ensures var s := emulator(Vm.QemuArgs(job.baseImage, job.testsImage, job.memsnapshot));
      var lines := s.respond(job.command + " " + job.gitUrl + "\r\n").lines;
      && Vm.PromptSeen(lines, job.prompt)
      && RunJob(job, finishedAt, emulator).value.output
         == Transcript(lines[..Vm.FirstPrompt(lines, job.prompt) + 1])
  {
  }

  /** Both timestamps are set, as `do_job` demands of a finished job. */
  predicate Stamped(job: Job)
  {
    job.startedAt.Some? && job.completedAt.Some?
  }

  /** The outcome `do_job` makes of running a claimed job: a successful run
      whose job lacks a timestamp is refused; a failed run leaves the job as
      claimed except for the `ERROR` status. Since a successful run always
      stamps `completed_at`, the refusal happens exactly when the job was
      never stamped as started. */
  function Conclude(job: Job, finishedAt: Time, emulator: Vm.Emulator): (r: Result<Job, WorkerError>)
    ensures r.Failure? <==> Execute(job, emulator).Success? && job.startedAt.None?
    ensures r.Failure? ==> r.error == FieldsNotSet
    ensures r.Success? ==> SameDefinition(r.value, job) && r.value.startedAt == job.startedAt
    ensures r.Success? && Execute(job, emulator).Success? ==>
      r.value.status == Complete && r.value.completedAt == Some(finishedAt)
      && r.value.output == Execute(job, emulator).value
    ensures Execute(job, emulator).Failure? ==>
      r.Success? && r.value.status == Error
      && r.value.completedAt == job.completedAt && r.value.output == job.output
  {
    match RunJob(job, finishedAt, emulator)
    case Success(done) => if !Stamped(done) then Failure(FieldsNotSet) else Success(done)
    case Failure(_) => Success(job.(status := Error))
  }

  /** `do_job`: claims a job at `claimedAt`, runs it, finishing at
      `finishedAt`, and saves it. `claimOk` and `saveOk` tell whether the
      store can be reached for the claim and for the save. */
  method DoJob(db: Db, claimOk: bool, saveOk: bool, claimedAt: Time, finishedAt: Time,
               emulator: Vm.Emulator)
    returns (r: Result<Option<Job>, WorkerError>, db': Db)
    ensures !claimOk ==> r == Failure(StoreUnavailable) && db' == db
    ensures r == Success(None) ==> db' == db
    ensures claimOk && NoneQueued(db.jobs) ==> r == Success(None)
    ensures r == Success(None) ==> NoneQueued(db.jobs) || exists id :: Oldest(db.jobs, id) && !Joined(db, id)
    ensures claimOk && !NoneQueued(db.jobs) && (forall id :: Oldest(db.jobs, id) ==> Joined(db, id)) ==>
      r != Success(None)
    ensures r.Failure? ==> r.error == StoreUnavailable && (!claimOk || !saveOk)
    ensures claimOk && !saveOk ==> r == Success(None) || r == Failure(StoreUnavailable)
    ensures claimOk && saveOk && !NoneQueued(db.jobs) && (forall id :: Oldest(db.jobs, id) ==> Joined(db, id)) ==>
      r.Success? && r.value.Some?
    ensures r.Failure? && claimOk ==>
      db'.tests == db.tests && db'.groups == db.groups &&
      exists id :: Oldest(db.jobs, id) && db'.jobs == db.jobs[id := MarkRunning(db.jobs[id], claimedAt)]
    ensures r.Success? && r.value.Some? ==>
      var job := r.value.value;
      && Oldest(db.jobs, job.id) && Joined(db, job.id)
      && SameDefinition(job, Load(db, job.id))
      && db'.tests == db.tests && db'.groups == db.groups
      && db'.jobs.Keys == db.jobs.Keys
      && (forall k :: k in db.jobs && k != job.id ==> db'.jobs[k] == db.jobs[k])
      && db'.jobs[job.id] == db.jobs[job.id].(status := ToStr(job.status), startedAt := Some(claimedAt),
                                             completedAt := job.completedAt, output := job.output)
      && job.startedAt == Some(claimedAt)
      && (job.status == Complete <==> Execute(job, emulator).Success?)
      && (job.status == Complete ==>
            job.completedAt == Some(finishedAt) && job.output == Execute(job, emulator).value)
      && (job.status != Complete ==>
            job.status == Error && job.completedAt == db.jobs[job.id].completedAt
            && job.output == db.jobs[job.id].output)
  {
    if !claimOk {
      return Failure(StoreUnavailable), db;
    }
    var claimed, claimedDb := Claim(db, claimedAt);
    if claimed.None? {
      return Success(None), claimedDb;
    }
    var job := claimed.value;
    assert claimedDb.jobs == db.jobs[job.id := MarkRunning(db.jobs[job.id], claimedAt)];
    var outcome := Conclude(job, finishedAt, emulator);
    if outcome.Failure? {
      return Failure(FieldsNotSet), claimedDb;
    }
    var finished := outcome.value;
    if !saveOk {
      return Failure(StoreUnavailable), claimedDb;
    }
    db' := Save(claimedDb, finished);
    r := Success(Some(finished));
  }
}

=== FILE: wrappers.dfy ===
/** Failure-carrying datatypes shared by the model: `Option` for the source's
    `Option<T>` and `Result` for its `anyhow::Result<T>`. */
module Wrappers {

  datatype Option<+T> = None | Some(value: T)

  datatype Result<+T, +E> = Success(value: T) | Failure(error: E)
}
